=== FILE: README.md ===
# php-serial in Dafny

A model of the `PhpSerial` class of musahcoding/php-serial, the object a
PHP program uses to drive a serial port on Linux, macOS or Windows. It
covers the following:

- **Device lifecycle.** `deviceSet` probes a name and records it.
  `deviceOpen` validates an fopen mode and opens the stream.
  `deviceClose` closes it and returns the device to `set`.
- **Configuration.** `confBaudRate`, `confParity`, `confCharacterLength`,
  `confStopBits` and `confFlowControl` each turn a setting into one
  `stty -F` (Linux), `stty -f` (macOS) or `mode` (Windows) command line.
- **Write buffer.** `sendMessage`, `serialFlush` and the `ensureOpen`
  guard.
- **Reading.** Only the gate of `readPort`.

The object is an immutable record, `Serial.Device`, which holds the fields
os, state, device, winDevice, handle, buffer and autoFlush. Every public
operation is a pure function of the following inputs:

- the record;
- the operation's argument;
- the outside world's answer: the exit code of the command it runs, or
  whether `fopen`, `fclose` or `fwrite` succeeded.

All seven fields are public properties in PHP (src/PhpSerial.php:16-28).
A session (`Session.Call`) covers the public methods and one assignment:
setting `autoFlush`, which is the only way to switch automatic flushing
off. The well-formedness invariant `Serial.Valid` therefore holds for
callers that change the other fields only through the methods.

Each operation returns a `Step`. A `Step` holds the record afterwards, the
one external action attempted (`Exec(command)`, `Fopen`, `Fclose` or
`Fwrite`), and the exception raised, if any. PHP's `null` inside a string
concatenation reads as the empty string (`Serial.Text`).

The modules are:

- `Decimal`: PHP's printing of integers and a digit parser. Parsing inverts
  printing for naturals. A negative number prints as `-` followed by its
  magnitude.
- `Patterns`: the two regular expressions, `@^COM(\d+):?$@i` and
  `@^[raw]\+?b?$@`. Neither uses the `D` modifier, so `$` also matches
  just before a final newline. `COM3\n` and `r+b\n` are therefore
  accepted, and the model keeps that.
- `Tables`: the baud, parity, stop-bit and flow-control tables, each tied
  to an independent description of the line settings it stands for.
- `Serial`: the class.
- `Session`: sequences of calls, and the invariants they keep.
- `Scenarios`: concrete command lines.

The doc comment of `confBaudRate` lists 24 rates and leaves out 19200. The
code accepts 19200 (code `19`), so the model accepts 25 rates, as the code
does.

## Model

| member | source | states |
|---|---|---|
| Decimal.NatToString | src/PhpSerial.php:234 | a natural number prints as a non-empty digit string with no leading zero; it has two or more digits exactly when the number is at least 10 |
| Decimal.IntToString | src/PhpSerial.php:77 | an integer prints as digits exactly when it is non-negative, and the digits read back as its value; a negative one prints as `-` followed by digits that read back as its magnitude; there is never a leading zero except in `0` itself |
| Decimal.ParseNatToString | src/PhpSerial.php:77 | reading back a printed natural number gives the number |
| Decimal.NatToStringParse | src/PhpSerial.php:76-77 | printing the value of a canonical digit string gives the string back |
| Decimal.NatToStringInjective | src/PhpSerial.php:234 | distinct naturals print differently |
| Decimal.IntToStringInjective | src/PhpSerial.php:234 | distinct integers print differently |
| Patterns.ComDigits | src/PhpSerial.php:76 | a match starts with `COM` in any case, then captures a non-empty run of digits, followed only by an optional colon and an optional final newline |
| Patterns.ComDigitsComplete | src/PhpSerial.php:96 | every name of that shape matches, and exactly its digits are captured |
| Patterns.IsOpenMode | src/PhpSerial.php:129 | an accepted mode starts with `r`, `a` or `w` and is at most four characters long (exactness is the next two rows) |
| Patterns.OpenModeComplete | src/PhpSerial.php:129 | each of the 12 fopen modes `[raw]`, `+`?, `b`? passes the mode check, with or without a final newline |
| Patterns.OpenModeSound | src/PhpSerial.php:129 | the mode check passes nothing else |
| Tables.BaudTableEntry | src/PhpSerial.php:197-232 | every rate in the table is at least 110; a rate up to 19200 maps to its two leading decimal digits, and a higher one maps to itself |
| Tables.BaudTableCoversSupportedRates | src/PhpSerial.php:197-232 | the merged table has an entry for exactly the 25 supported rates |
| Tables.LeadingTwoDigitsPrinted | src/PhpSerial.php:197-207 | keeping the first two characters of a printed number keeps its two leading digits |
| Tables.LowCodeIsLeadingDigits | src/PhpSerial.php:197-207 | each of the nine low-rate codes is the rate's first two decimal digits |
| Tables.WindowsBaudCode | src/PhpSerial.php:197-238 | the Windows `BAUD=` value is the rate's first two digits up to 19200, and the whole rate above |
| Tables.BaudTableEntryInjective | src/PhpSerial.php:197-230 | no two rates share a table value |
| Tables.WindowsBaudCodeInjective | src/PhpSerial.php:232-238 | distinct supported rates get distinct Windows codes |
| Tables.ParityNamed | src/PhpSerial.php:263-271 | exactly `none`, `odd` and `even` are accepted, each naming its parity mode |
| Tables.ParitySttyArgs | src/PhpSerial.php:263-267 | the parity arguments turn `parenb` on exactly when parity is used, and, when it is, `parodd` on exactly for odd |
| Tables.ClampLength | src/PhpSerial.php:301-305 | the length lies in 5..8, is unchanged inside that range, is 5 below it and 8 above it |
| Tables.StopLengthOf | src/PhpSerial.php:336-338 | exactly 1, 1.5 and 2 are accepted, each naming its stop-bit length |
| Tables.StopText | src/PhpSerial.php:345 | the text has no decimal point exactly when the length is a whole number, and it then reads back as the length with no leading zero; otherwise it is one digit, a point and one digit that read back as the length |
| Tables.StopSttyArg | src/PhpSerial.php:340-343 | `cstopb` is on exactly when the length is not 1 |
| Tables.FlowNamed | src/PhpSerial.php:380-382 | exactly `none`, `rts/cts` and `xon/xoff` are accepted, each naming its mode |
| Tables.FlowSttyArgs | src/PhpSerial.php:369-373 | for each mode, the `stty` table entry sets `clocal` only for none, `crtscts` only for rts/cts, and `ixon` and `ixoff` only for xon/xoff |
| Tables.FlowModeArgs | src/PhpSerial.php:374-378 | for each mode, the `mode` table entry sets `xon` on only for xon/xoff, `octs` on and `rts=hs` only for rts/cts, and `rts=on` otherwise |
| Serial.NewDeviceValid | src/PhpSerial.php:16-28 | a new object (nothing set, no stream, empty buffer) is well-formed |
| Serial.DeviceSet | src/PhpSerial.php:72-114 | it is refused with no effect while open; otherwise it runs the OS's probe, succeeds exactly when the probe runs and exits 0, and records the name in state `set` (on Windows the names `COM<n>` and `\.\com<n>`); a failure changes nothing |
| Serial.LinuxDevicePath | src/PhpSerial.php:76-77 | a name that is not a COM name is used as given; a COM name becomes `/dev/ttyS` followed by the digits' value minus one, when that is not negative |
| Serial.LinuxComRewrite | src/PhpSerial.php:75-78 | on Linux, `COM` in any case, then any digit run (leading zeros included) and an optional colon, names `/dev/ttyS` followed by the printed value of the digits minus one |
| Serial.ProbeCommand | src/PhpSerial.php:80-100 | a probe is run on Linux and macOS for every name, on Windows exactly for COM names (as `mode <name> xon=on BAUD=9600`), and never for an unknown OS |
| Serial.ProbeUsesConfigPrefix | src/PhpSerial.php:80-89 | on Linux and macOS, a successful set probed the name with exactly the `stty` prefix the configuration operations then use on the recorded device |
| Serial.DeviceOpen | src/PhpSerial.php:119-149 | the errors come in order (already open, not set, bad mode, fopen failure) and none changes the record; success stores the stream and moves to `opened` |
| Serial.DeviceClose | src/PhpSerial.php:159-173 | closing does nothing unless the device is open; a successful close drops the stream and returns to `set`; a failed close raises and changes nothing |
| Serial.ConfigCommandInjective | src/PhpSerial.php:234-238 | the arguments can be read back off a configuration command |
| Serial.ConfBaudRate | src/PhpSerial.php:191-249 | raises unless the state is `set`, then rejects rates outside the 25 with no command; Linux and macOS send the rate and Windows its code; an unknown OS skips the command; a non-zero exit raises; the record never changes |
| Serial.BaudCommandDeterminesRate | src/PhpSerial.php:232-238 | different rates never produce the same command |
| Serial.ConfParity | src/PhpSerial.php:257-286 | checks the state first, then the name; sends the `stty` parity arguments or `PARITY=` with the first letter; succeeds exactly on exit 0 and never changes the record |
| Serial.ConfCharacterLength | src/PhpSerial.php:293-320 | checks the state first; sends `cs<n>` or `DATA=<n>`; succeeds exactly on exit 0 and never changes the record |
| Serial.CharacterLengthBelowRange | src/PhpSerial.php:301-302 | a length below 5 behaves exactly as 5 |
| Serial.CharacterLengthAboveRange | src/PhpSerial.php:303-304 | a length above 8 behaves exactly as 8 |
| Serial.ConfStopBits | src/PhpSerial.php:328-353 | checks the state first, then the length; `stty` gets `-cstopb` exactly for length 1, and `mode` gets `STOP=` with the printed length; succeeds exactly on exit 0 and never changes the record |
| Serial.StopBitsOneAndHalfAsTwo | src/PhpSerial.php:340-343 | on Linux and macOS, 1.5 stop bits does exactly what 2 does |
| Serial.ConfFlowControl | src/PhpSerial.php:363-395 | checks the state first, then the name; sends the mode's `stty` or `mode` table entry; succeeds exactly on exit 0 and never changes the record |
| Serial.EnsureOpen | src/PhpSerial.php:556-561 | passes exactly when the device is open, and raises otherwise |
| Serial.SerialFlush | src/PhpSerial.php:538-550 | when not open, it raises and keeps the buffer; when open, it writes the whole buffer and empties it whether or not the write succeeds, raising on failure |
| Serial.SendMessage | src/PhpSerial.php:433-442 | the message is appended first; without auto-flush nothing else happens; with it, an open device writes the old buffer plus the message and is left empty, and a device that is not open raises with the message kept |
| Serial.ReadPortGuard | src/PhpSerial.php:490-531 | reading may proceed exactly when the device is open and the OS is known; otherwise "not opened" is checked first |
| Session.ApplyPreservesValid | src/PhpSerial.php:72-173 | every operation keeps a well-formed record well-formed: stream iff `opened`, device iff set, Windows names paired, stream path is the device |
| Session.RunPreservesValid | src/PhpSerial.php:72-173 | well-formedness holds after any sequence of calls |
| Session.HandleIffOpened | src/PhpSerial.php:145-167 | from a new object, a stream is held exactly while the state is `opened`, and `closed` is never reached |
| Session.OpenOnlyFromSet | src/PhpSerial.php:119-131 | on a well-formed record, opening succeeds only from `set`; from `not_set` and `opened` it raises the matching error |
| Session.OpenCloseRoundTrip | src/PhpSerial.php:119-173 | opening and then closing a set device restores the very same record, after exactly one fopen and one fclose |
| Session.ConfigurationKeepsRecord | src/PhpSerial.php:191-395 | any sequence of configuration calls, whatever their exit codes, leaves the record unchanged |
| Session.ConfigurationRunsOnlyWhenSet | src/PhpSerial.php:193-195 | a configuration call runs a command only in state `set`, and outside it raises "not configurable" |
| Session.SendsQueue | src/PhpSerial.php:433-439 | without auto-flush, sends append their messages in order and touch nothing outside |
| Session.AutoFlushKeptWithoutAssignment | src/PhpSerial.php:25-28 | no operation changes automatic flushing; only assigning the property does |
| Session.ManualFlushReachable | src/PhpSerial.php:25-28 | assigning `autoFlush = false` to a new object changes only that field and does nothing outside, so manual flushing is reachable |
| Session.SendsThenFlush | src/PhpSerial.php:433-550 | queued sends and then a flush on an open device write everything queued, in order, in a single write, and leave the buffer empty |
| Scenarios.SetLinuxPath | src/PhpSerial.php:75-84 | a plain path on Linux is probed with `stty -F` and recorded unchanged |
| Scenarios.SetLinuxComName | src/PhpSerial.php:75-83 | `COM3` on Linux probes and records `/dev/ttyS2` |
| Scenarios.LinuxPathOfComLeadingZero | src/PhpSerial.php:76-77 | `COM01` on Linux names `/dev/ttyS0` |
| Scenarios.SetLinuxComZero | src/PhpSerial.php:75-80 | `COM0` on Linux probes `/dev/ttyS-1` |
| Scenarios.SetWindowsLowerCaseWithColon | src/PhpSerial.php:93-106 | `com7:` on Windows probes `mode com7: xon=on BAUD=9600` and records `COM7` and `\.\com7` |
| Scenarios.SetWindowsRejectsPath | src/PhpSerial.php:93-110 | a path on Windows is rejected without running anything |
| Scenarios.WindowsBaud9600 | src/PhpSerial.php:205-238 | 9600 baud on Windows runs `mode COM3 BAUD=96` |
| Scenarios.LinuxBaudRejected | src/PhpSerial.php:246-247 | 9601 baud is rejected without running anything |
| Scenarios.OpenBeforeSet | src/PhpSerial.php:125-127 | opening a new object raises "must be set" without touching anything |
| Scenarios.SendWithAutoFlush | src/PhpSerial.php:433-439 | with auto-flush on an open device, a message is written at once and the buffer is left empty |
| Scenarios.MacOddParity | src/PhpSerial.php:265-276 | odd parity on macOS runs `stty -f <dev> parenb parodd` |
| Scenarios.WindowsEvenParity | src/PhpSerial.php:278 | even parity on Windows runs `mode COM3 PARITY=e` |
| Scenarios.StopBitsOneAndHalfIsTwoOnLinux | src/PhpSerial.php:340-341 | 1.5 stop bits gives `cstopb` on Linux, the same step as 2 |
| Scenarios.WindowsStopBitsOneAndHalf | src/PhpSerial.php:345 | 1.5 stop bits gives `STOP=1.5` on Windows |
| Scenarios.LinuxRtsCts | src/PhpSerial.php:371-385 | rts/cts on Linux runs `stty -F <dev> -clocal crtscts -ixon -ixoff` |
| Scenarios.WindowsXonXoff | src/PhpSerial.php:377-389 | xon/xoff on Windows runs `mode COM3 xon=on octs=off rts=on` |
| Scenarios.CharacterLengthClamped | src/PhpSerial.php:301-312 | 12 data bits become `DATA=8` on Windows, and 3 become `cs5` on Linux |

## Left out

- The constructor (src/PhpSerial.php:30-59) is left out. It detects the OS with `php_uname`, calls `setlocale` and registers a shutdown hook. The OS is instead a field given to `Serial.NewDevice`.
- `exec` and `proc_open` (src/PhpSerial.php:563-585) are reduced to the exit code, which is a parameter. The error text built from the command's output is not modelled.
- Serial.DeviceSet: the Windows probe runs `exec(exec('mode …'))`, which runs the first command's last output line as a second command. This is reduced to a single probe command and its exit code.
- Serial.LinuxComRewrite: integers are unbounded. A COM number too large for a PHP int, which PHP would turn into a float, is not modelled.
- Serial.ConfStopBits: the length is an exact rational number. Floating-point values other than 1, 1.5 and 2, and how PHP would print them, are not modelled; they are rejected either way.
- Serial.ReadPortGuard: only the checks before reading are modelled. The read loops of `readPort`, and `readLine`, `readFlush` and `dataAvailable` (src/PhpSerial.php:447-532), depend on `fread` and `stream_select` on a non-blocking stream and are left out.
- `deviceOpen` defaults its mode to `r+b` (src/PhpSerial.php:119). The model has no default arguments, so a caller always passes the mode to `Serial.DeviceOpen`.
- `setBlocking` (src/PhpSerial.php:154-157) is left out. With no stream held (any state but `opened`) its handle is null, and PHP 8's `stream_set_blocking` then throws a `TypeError`; with a stream it only changes the blocking mode.
- The `stream_set_blocking` call in `deviceOpen` (src/PhpSerial.php:147) is left out. It only makes the stream just opened non-blocking.
- Direct assignments to the public properties `state`, `device`, `winDevice`, `handle`, `buffer` and `os` (src/PhpSerial.php:16-23) are not modelled. Only `autoFlush` can be assigned in a session, so `Serial.Valid` and `Session.HandleIffOpened` speak of callers that use the methods.
- `setSetSerialFlag` (src/PhpSerial.php:406-417), a deprecated shell call, is left out.
- Serial.SendMessage: the `waitForReply` argument (default 0.1 seconds) and the `usleep` after the flush (src/PhpSerial.php:441) are not modelled. A wait whose microsecond count is negative makes PHP's `usleep` raise after the message has been queued and flushed; the model assumes a non-negative wait and reports the outcome of the flush alone.
- The `closed` device state exists in the enum (src/Enum/SerialDeviceState.php:7-13) but is never assigned. Records in it are outside `Serial.Valid`. `DeviceOpen` and the configuration operations still treat it as the source does.

=== FILE: decimal.dfy ===
/** Decimal rendering of integers, as PHP's string conversion of an `int`
    produces it, and the parser that inverts it. */
module Decimal {

  predicate IsDigit(c: char) {
    '0' <= c <= '9'
  }

  predicate IsDigits(s: string) {
    forall i :: 0 <= i < |s| ==> IsDigit(s[i])
  }

  function DigitChar(d: nat): (c: char)
    requires d < 10
    ensures IsDigit(c)
  {
    ('0' as int + d) as char
  }

  function DigitValue(c: char): (d: nat)
    requires IsDigit(c)
    ensures d < 10 && DigitChar(d) == c
  {
    c as int - '0' as int
  }

  /** Shortest decimal spelling of `n`: digits only, never a leading zero. */
  function NatToString(n: nat): (s: string)
    ensures |s| >= 1 && IsDigits(s)
    ensures s[0] == '0' <==> n == 0
    ensures n >= 10 <==> |s| >= 2
  {
    if n < 10 then [DigitChar(n)] else NatToString(n / 10) + [DigitChar(n % 10)]
  }

  /** Value of a string of decimal digits (leading zeros allowed). */
  function ParseDigits(s: string): nat
    requires IsDigits(s)
  {
    if s == [] then 0 else ParseDigits(s[..|s| - 1]) * 10 + DigitValue(s[|s| - 1])
  }

  /** `-` followed by the magnitude for negative numbers, as PHP prints an int. */
  function IntToString(i: int): (s: string)
    ensures |s| >= 1
    ensures i >= 0 <==> IsDigits(s)
    ensures i >= 0 ==> ParseDigits(s) == i
    ensures i < 0 ==> s[0] == '-' && IsDigits(s[1..]) && ParseDigits(s[1..]) == -i
    ensures i >= 0 ==> (s[0] == '0' <==> i == 0)
    ensures i < 0 ==> |s| >= 2 && s[1] != '0'
  {
    if i < 0 then
      var r := "-" + NatToString(-i);
      assert !IsDigit(r[0]);
      assert r[1..] == NatToString(-i);
      ParseNatToString(-i);
      r
    else
      ParseNatToString(i);
      NatToString(i)
  }

  /** Parsing undoes printing. */
  lemma {:induction false} ParseNatToString(n: nat)
    ensures ParseDigits(NatToString(n)) == n
  {
    var s := NatToString(n);
    if n < 10 {
      assert s[..|s| - 1] == [];
    } else {
      assert s[..|s| - 1] == NatToString(n / 10);
      ParseNatToString(n / 10);
    }
  }

  /** Printing undoes parsing for every canonical digit string. */
  lemma {:induction false} NatToStringParse(s: string)
    requires |s| >= 1 && IsDigits(s)
    requires s[0] != '0' || |s| == 1
    ensures NatToString(ParseDigits(s)) == s
  {
    var p := s[..|s| - 1];
    if |s| == 1 {
      assert p == [];
    } else {
      assert p[0] == s[0];
      NatToStringParse(p);
      var v := ParseDigits(p);
      assert v != 0;
      var n := ParseDigits(s);
      assert n == v * 10 + DigitValue(s[|s| - 1]);
      assert n / 10 == v && n % 10 == DigitValue(s[|s| - 1]);
      assert s == p + [s[|s| - 1]];
    }
  }

  lemma NatToStringInjective(a: nat, b: nat)
    ensures NatToString(a) == NatToString(b) ==> a == b
  {
    ParseNatToString(a);
    ParseNatToString(b);
  }

  lemma IntToStringInjective(a: int, b: int)
    ensures IntToString(a) == IntToString(b) ==> a == b
  {
    if IntToString(a) == IntToString(b) {
      if a < 0 && b < 0 {
        assert NatToString(-a) == IntToString(a)[1..];
        NatToStringInjective(-a, -b);
      } else if a >= 0 && b >= 0 {
        NatToStringInjective(a, b);
      }
    }
  }

}

=== FILE: enums.dfy ===
/** The two PHP enumerations the serial class is built on. */
module Enums {

  /** Host operating system; `OsNotSet` is the value before detection. */
  datatype Os = OsNotSet | Linux | Windows | Mac

  /** Lifecycle state of the serial device. `Closed` exists in the
      enumeration but no operation ever assigns it: closing a device
      returns it to `Set`. */
  datatype DeviceState = NotSet | Set | Opened | Closed

}

=== FILE: patterns.dfy ===
/** The two regular expressions of the serial class, as predicates.

    Both patterns end in `$` without the `D` modifier, so PCRE lets `$`
    match either at the very end of the subject or just before a single
    newline that ends it; the matchers below keep that behaviour. */
module Patterns {

  import opened Wrappers
  import opened Decimal

  /** The endings `:?$` accepts after the digits of a COM name. */
  const ComTails: set<string> := {"", ":", "\n", ":\n"}

  /** `c` equals the upper-case ASCII letter `upper` or its lower-case form. */
  predicate SameLetterIgnoringCase(c: char, upper: char)
    requires 'A' <= upper <= 'Z'
  {
    c == upper || c as int == upper as int + 32
  }

  /** `COM` under the `i` flag: any mix of cases. */
  predicate IsComWord(s: string) {
    && |s| == 3
    && SameLetterIgnoringCase(s[0], 'C')
    && SameLetterIgnoringCase(s[1], 'O')
    && SameLetterIgnoringCase(s[2], 'M')
  }

  /** Length of the run of digits `\d+` consumes at the front of `s`. */
  function DigitRun(s: string): (n: nat)
    ensures n <= |s| && IsDigits(s[..n])
    ensures n < |s| ==> !IsDigit(s[n])
  {
    if s == [] || !IsDigit(s[0]) then 0
    else
      var k := DigitRun(s[1..]);
      assert s[..k + 1] == [s[0]] + s[1..][..k];
      k + 1
  }

  /** The digits captured by `^COM(\d+):?$` (case-insensitive), or `None`
      when the name does not match. */
  function ComDigits(name: string): (r: Option<string>)
    ensures r.Some? ==> |name| >= 4 && IsComWord(name[..3])
    ensures r.Some? ==> |r.value| >= 1 && IsDigits(r.value)
    ensures r.Some? ==> 3 + |r.value| <= |name| && name[3..3 + |r.value|] == r.value
    ensures r.Some? ==> name[3 + |r.value|..] in ComTails
  {
    if |name| < 4 || !IsComWord(name[..3]) then None
    else
      var n := DigitRun(name[3..]);
      if n == 0 || name[3 + n..] !in ComTails then None
      else
        assert name[3..][..n] == name[3..3 + n];
        Some(name[3..3 + n])
  }

  lemma {:induction false} DigitRunOfDigitsThenTail(ds: string, tail: string)
    requires IsDigits(ds)
    requires tail == [] || !IsDigit(tail[0])
    ensures DigitRun(ds + tail) == |ds|
  {
    if ds != [] {
      assert (ds + tail)[1..] == ds[1..] + tail;
      DigitRunOfDigitsThenTail(ds[1..], tail);
    } else {
      assert ds + tail == tail;
    }
  }

  /** Every spelling the pattern describes is recognised, with its digits
      captured: together with the contract of `ComDigits` this makes the
      matcher exact. */
  lemma ComDigitsComplete(word: string, ds: string, tail: string)
    requires IsComWord(word)
    requires |ds| >= 1 && IsDigits(ds)
    requires tail in ComTails
    ensures ComDigits(word + ds + tail) == Some(ds)
  {
    var name := word + ds + tail;
    assert name[..3] == word;
    assert name[3..] == ds + tail;
    DigitRunOfDigitsThenTail(ds, tail);
    assert name[3 + |ds|..] == tail;
    assert name[3..3 + |ds|] == ds;
  }

  /** `s` without its first character when that character is `c`: an
      optional single-character atom such as `\+?`. */
  function SkipOptional(s: string, c: char): (t: string)
    ensures t == s || [c] + t == s
  {
    if |s| > 0 && s[0] == c then s[1..] else s
  }

  /** `^[raw]\+?b?$`: one of `r`, `a`, `w`, then an optional `+`, then an
      optional `b`, consumed left to right as the pattern does. */
  predicate IsOpenMode(mode: string)
    ensures IsOpenMode(mode) ==> 1 <= |mode| <= 4 && mode[0] in "raw"
  {
    && |mode| >= 1
    && mode[0] in "raw"
    && SkipOptional(SkipOptional(mode[1..], '+'), 'b') in {"", "\n"}
  }

  /** The twelve fopen modes the pattern admits, each optionally followed
      by the newline `$` tolerates. */
  const OpenModes: set<string> :=
    {"r", "r+", "rb", "r+b", "a", "a+", "ab", "a+b", "w", "w+", "wb", "w+b",
     "r\n", "r+\n", "rb\n", "r+b\n", "a\n", "a+\n", "ab\n", "a+b\n",
     "w\n", "w+\n", "wb\n", "w+b\n"}

  /** Every listed mode is accepted by the matcher. */
  lemma OpenModeComplete(mode: string)
    requires mode in OpenModes
    ensures IsOpenMode(mode)
  {
  }

  /** The matcher accepts nothing beyond the listed modes. */
  lemma OpenModeSound(mode: string)
    requires IsOpenMode(mode)
    ensures mode in OpenModes
  {
    var rest := mode[1..];
    var afterPlus := SkipOptional(rest, '+');
    var end := SkipOptional(afterPlus, 'b');
    assert mode == [mode[0]] + rest;
    var b := if afterPlus == end then "" else "b";
    var plus := if rest == afterPlus then "" else "+";
    assert rest == plus + b + end;
    assert mode == [mode[0]] + plus + b + end;
    if mode[0] == 'r' && plus == "" && b == "" && end == "" {
      assert mode == "r";
    } else if mode[0] == 'r' && plus == "" && b == "" && end == "\n" {
      assert mode == "r\n";
    } else if mode[0] == 'r' && plus == "" && b == "b" && end == "" {
      assert mode == "rb";
    } else if mode[0] == 'r' && plus == "" && b == "b" && end == "\n" {
      assert mode == "rb\n";
    } else if mode[0] == 'r' && plus == "+" && b == "" && end == "" {
      assert mode == "r+";
    } else if mode[0] == 'r' && plus == "+" && b == "" && end == "\n" {
      assert mode == "r+\n";
    } else if mode[0] == 'r' && plus == "+" && b == "b" && end == "" {
      assert mode == "r+b";
    } else if mode[0] == 'r' && plus == "+" && b == "b" && end == "\n" {
      assert mode == "r+b\n";
    } else if mode[0] == 'a' && plus == "" && b == "" && end == "" {
      assert mode == "a";
    } else if mode[0] == 'a' && plus == "" && b == "" && end == "\n" {
      assert mode == "a\n";
    } else if mode[0] == 'a' && plus == "" && b == "b" && end == "" {
      assert mode == "ab";
    } else if mode[0] == 'a' && plus == "" && b == "b" && end == "\n" {
      assert mode == "ab\n";
    } else if mode[0] == 'a' && plus == "+" && b == "" && end == "" {
      assert mode == "a+";
    } else if mode[0] == 'a' && plus == "+" && b == "" && end == "\n" {
      assert mode == "a+\n";
    } else if mode[0] == 'a' && plus == "+" && b == "b" && end == "" {
      assert mode == "a+b";
    } else if mode[0] == 'a' && plus == "+" && b == "b" && end == "\n" {
      assert mode == "a+b\n";
    } else if mode[0] == 'w' && plus == "" && b == "" && end == "" {
      assert mode == "w";
    } else if mode[0] == 'w' && plus == "" && b == "" && end == "\n" {
      assert mode == "w\n";
    } else if mode[0] == 'w' && plus == "" && b == "b" && end == "" {
      assert mode == "wb";
    } else if mode[0] == 'w' && plus == "" && b == "b" && end == "\n" {
      assert mode == "wb\n";
    } else if mode[0] == 'w' && plus == "+" && b == "" && end == "" {
      assert mode == "w+";
    } else if mode[0] == 'w' && plus == "+" && b == "" && end == "\n" {
      assert mode == "w+\n";
    } else if mode[0] == 'w' && plus == "+" && b == "b" && end == "" {
      assert mode == "w+b";
    } else if mode[0] == 'w' && plus == "+" && b == "b" && end == "\n" {
      assert mode == "w+b\n";
    }
  }

}

=== FILE: scenarios.dfy ===
/** Worked examples: concrete devices, arguments and answers, with the
    exact command lines and records that result. */
module Scenarios {

  import opened Wrappers
  import opened Enums
  import opened Decimal
  import opened Patterns
  import opened Tables
  import opened Serial

  /** A Linux device that has been set to `/dev/ttyS0`. */
  const LinuxSet: Device := Device(Linux, Set, Some("/dev/ttyS0"), None, None, "", true)

  /** A Windows device set through `COM3`. */
  const WindowsSet: Device := Device(Windows, Set, Some("\\.\\com3"), Some("COM3"), None, "", true)

  /** A macOS device set to a USB adapter. */
  const MacSet: Device := Device(Mac, Set, Some("/dev/tty.usbserial"), None, None, "", true)

  lemma SetLinuxPath()
    ensures DeviceSet(NewDevice(Linux), "/dev/ttyUSB0", 0)
            == Step(NewDevice(Linux).(state := Set, device := Some("/dev/ttyUSB0")),
                    Some(Exec("stty -F /dev/ttyUSB0")), None)
  {
    assert ComDigits("/dev/ttyUSB0") == None by {
      assert !IsComWord("/dev/ttyUSB0"[..3]);
    }
    assert "stty -F " + "/dev/ttyUSB0" == "stty -F /dev/ttyUSB0";
  }

  lemma SetLinuxComName()
    ensures DeviceSet(NewDevice(Linux), "COM3", 0).effect == Some(Exec("stty -F /dev/ttyS2"))
    ensures DeviceSet(NewDevice(Linux), "COM3", 0).dev.device == Some("/dev/ttyS2")
  {
    assert NatToString(3) == "3";
    assert "COM" + "3" + "" == "COM3";
    assert ParseDigits("3") == 3 by { assert "3"[..0] == []; }
    LinuxComRewrite("COM", "3", "");
    assert IntToString(2) == "2";
    assert LinuxDevicePath("COM3") == "/dev/ttyS2";
    assert "stty -F " + "/dev/ttyS2" == "stty -F /dev/ttyS2";
  }

  /** `COM0` has no predecessor port; the arithmetic yields `ttyS-1`. */
  lemma LinuxPathOfComZero()
    ensures LinuxDevicePath("COM0") == "/dev/ttyS-1"
  {
    assert NatToString(0) == "0";
    assert "COM" + "0" + "" == "COM0";
    assert ParseDigits("0") == 0 by { assert "0"[..0] == []; }
    LinuxComRewrite("COM", "0", "");
    assert NatToString(1) == "1";
    assert IntToString(-1) == "-1";
    assert "/dev/ttyS" + "-1" == "/dev/ttyS-1";
  }

  /** Leading zeros in the COM number are harmless: `COM01` is `ttyS0`. */
  lemma LinuxPathOfComLeadingZero()
    ensures LinuxDevicePath("COM01") == "/dev/ttyS0"
  {
    assert "COM" + "01" + "" == "COM01";
    ValueOfZeroOne();
    LinuxComRewrite("COM", "01", "");
    assert IntToString(0) == "0";
  }

  lemma ValueOfZeroOne()
    ensures IsDigits("01") && ParseDigits("01") == 1
  {
    assert "01"[..1] == "0" && "0"[..0] == [];
  }

  lemma SetLinuxComZero()
    ensures DeviceSet(NewDevice(Linux), "COM0", 0).effect == Some(Exec("stty -F /dev/ttyS-1"))
  {
    LinuxPathOfComZero();
    assert "stty -F " + "/dev/ttyS-1" == "stty -F /dev/ttyS-1";
  }

  lemma SetWindowsLowerCaseWithColon()
    ensures DeviceSet(NewDevice(Windows), "com7:", 0)
            == Step(NewDevice(Windows).(state := Set, device := Some("\\.\\com7"), winDevice := Some("COM7")),
                    Some(Exec("mode com7: xon=on BAUD=9600")), None)
  {
    assert IsComWord("com");
    assert "com" + "7" + ":" == "com7:";
    ComDigitsComplete("com", "7", ":");
    assert "COM" + "7" == "COM7";
    assert "\\.\\com" + "7" == "\\.\\com7";
    assert "mode " + "com7:" + " xon=on BAUD=9600" == "mode com7: xon=on BAUD=9600";
  }

  lemma SetWindowsRejectsPath()
    ensures DeviceSet(NewDevice(Windows), "/dev/ttyS0", 0) == Step(NewDevice(Windows), None, Some(InvalidDevice))
  {
    assert !IsComWord("/dev/ttyS0"[..3]);
  }

  lemma WindowsBaud9600()
    ensures ConfBaudRate(WindowsSet, 9600, 0) == Step(WindowsSet, Some(Exec("mode COM3 BAUD=96")), None)
  {
    assert 9600 in SupportedRates;
    WindowsBaud9600Command();
  }

  lemma WindowsBaud9600Command()
    ensures ConfigCommand(WindowsSet, "BAUD=" + WindowsBaudCode(9600)) == "mode COM3 BAUD=96"
  {
    assert NatToString(96) == "96";
    assert WindowsBaudCode(9600) == "96";
    assert ConfigPrefix(WindowsSet) == "mode COM3";
  }

  lemma LinuxBaudRejected()
    ensures ConfBaudRate(LinuxSet, 9601, 0) == Step(LinuxSet, None, Some(UnknownBaudRate(9601)))
  {
    assert 9601 !in SupportedRates;
  }

  lemma OpenBeforeSet()
    ensures DeviceOpen(NewDevice(Linux), "r+b", true) == Step(NewDevice(Linux), None, Some(DeviceNotSet))
  {
  }

  lemma SendWithAutoFlush()
    ensures var open := LinuxSet.(state := Opened, handle := Some(Handle("/dev/ttyS0", "r+b")));
            SendMessage(open, "AT\r\n", true) == Step(open, Some(Fwrite("AT\r\n")), None)
  {
    assert "" + "AT\r\n" == "AT\r\n";
  }

  lemma MacOddParity()
    ensures ConfParity(MacSet, "odd", 0).effect == Some(Exec("stty -f /dev/tty.usbserial parenb parodd"))
  {
    assert ParityNamed("odd") == Some(OddParity);
    MacOddParityCommand();
  }

  lemma MacOddParityCommand()
    ensures ConfigCommand(MacSet, ParitySttyArgs(OddParity)) == "stty -f /dev/tty.usbserial parenb parodd"
  {
    assert ConfigPrefix(MacSet) == "stty -f /dev/tty.usbserial";
  }

  lemma WindowsEvenParity()
    ensures ConfParity(WindowsSet, "even", 0).effect == Some(Exec("mode COM3 PARITY=e"))
  {
    assert "PARITY=" + ["even"[0]] == "PARITY=e";
    assert ConfigCommand(WindowsSet, "PARITY=e") == "mode COM3 PARITY=e";
  }

  lemma StopBitsOneAndHalfIsTwoOnLinux()
    ensures ConfStopBits(LinuxSet, 1.5, 0) == ConfStopBits(LinuxSet, 2.0, 0)
    ensures ConfStopBits(LinuxSet, 1.5, 0).effect == Some(Exec("stty -F /dev/ttyS0 cstopb"))
  {
    StopBitsOneAndHalfAsTwo(LinuxSet, 0);
    assert StopLengthOf(1.5).Some?;
    LinuxStopCommand();
  }

  lemma LinuxStopCommand()
    ensures ConfigCommand(LinuxSet, SttyFlag("cstopb", 1.5 != 1.0)) == "stty -F /dev/ttyS0 cstopb"
  {
    assert ConfigPrefix(LinuxSet) == "stty -F /dev/ttyS0";
  }

  lemma WindowsStopBitsOneAndHalf()
    ensures ConfStopBits(WindowsSet, 1.5, 0).effect == Some(Exec("mode COM3 STOP=1.5"))
  {
    assert StopLengthOf(1.5) == Some(OneAndHalfStop);
    WindowsStopCommand();
  }

  lemma WindowsStopCommand()
    ensures ConfigCommand(WindowsSet, "STOP=" + StopText(OneAndHalfStop)) == "mode COM3 STOP=1.5"
  {
    assert StopText(OneAndHalfStop) == "1.5";
    assert ConfigPrefix(WindowsSet) == "mode COM3";
  }

  lemma LinuxRtsCtsCommand()
    ensures ConfigCommand(LinuxSet, FlowSttyArgs(RtsCts)) == "stty -F /dev/ttyS0 -clocal crtscts -ixon -ixoff"
  {
    assert ConfigPrefix(LinuxSet) == "stty -F /dev/ttyS0";
  }

  lemma LinuxRtsCts()
    ensures ConfFlowControl(LinuxSet, "rts/cts", 0).effect == Some(Exec("stty -F /dev/ttyS0 -clocal crtscts -ixon -ixoff"))
  {
    assert FlowNamed("rts/cts") == Some(RtsCts);
    LinuxRtsCtsCommand();
  }

  lemma WindowsXonXoff()
    ensures ConfFlowControl(WindowsSet, "xon/xoff", 0).effect == Some(Exec("mode COM3 xon=on octs=off rts=on"))
  {
    assert ConfigCommand(WindowsSet, "xon=on octs=off rts=on") == "mode COM3 xon=on octs=off rts=on";
  }

  lemma CharacterLengthClamped()
    ensures ConfCharacterLength(WindowsSet, 12, 0).effect == Some(Exec("mode COM3 DATA=8"))
    ensures ConfCharacterLength(LinuxSet, 3, 0).effect == Some(Exec("stty -F /dev/ttyS0 cs5"))
  {
    CharacterLengthAboveRange(WindowsSet, 12, 0);
    CharacterLengthBelowRange(LinuxSet, 3, 0);
    ClampedCommands();
  }

  lemma ClampedCommands()
    ensures ConfigCommand(WindowsSet, "DATA=" + NatToString(8)) == "mode COM3 DATA=8"
    ensures ConfigCommand(LinuxSet, "cs" + NatToString(5)) == "stty -F /dev/ttyS0 cs5"
  {
    assert NatToString(8) == "8" && NatToString(5) == "5";
    assert ConfigPrefix(WindowsSet) == "mode COM3";
    assert ConfigPrefix(LinuxSet) == "stty -F /dev/ttyS0";
  }

}

=== FILE: serial.dfy ===
/** The serial device object: its lifecycle (set, open, close), the five
    configuration operations that translate a setting into one `stty` or
    `mode` command line, and the write buffer.

    Every operation is a pure function from the device record, its
    argument and the answer of the outside world (the exit code of the
    command it runs, whether fopen / fclose / fwrite succeeded) to a
    `Step`: the record afterwards, the external action it attempted, and
    the exception it raised, if any. */
module Serial {

  import opened Wrappers
  import opened Enums
  import opened Decimal
  import opened Patterns
  import opened Tables

  /** An open stream: the path and fopen mode it was opened with. */
  datatype Handle = Handle(path: string, mode: string)

  /** The object's fields. `device` and `winDevice` are nullable strings;
      `handle` is present while the stream is open. */
  datatype Device = Device(
    os: Os,
    state: DeviceState,
    device: Option<string>,
    winDevice: Option<string>,
    handle: Option<Handle>,
    buffer: string,
    autoFlush: bool)

  /** A new object on a host whose OS has been detected: nothing set, no
      stream, an empty buffer, automatic flushing on. */
  function NewDevice(os: Os): Device {
    Device(os, NotSet, None, None, None, "", true)
  }

  /** The setting a configuration operation changes. */
  datatype Setting = BaudRate | Parity | CharacterLength | StopBits | FlowControl

  /** The exceptions the object raises, one per distinct cause. */
  datatype Error =
    | DeviceBusy                          // set while the device is open
    | InvalidDevice                       // the probe failed or the name is not usable
    | AlreadyOpened
    | DeviceNotSet                        // open before any device was set
    | InvalidOpenMode(mode: string)
    | OpenFailed(path: string, mode: string)
    | CloseFailed
    | NotConfigurable(setting: Setting)   // configuration outside state Set
    | UnknownBaudRate(rate: int)
    | UnsupportedParity
    | InvalidStopBits
    | InvalidFlowControl
    | CommandFailed(setting: Setting)     // the configuration command exited non-zero
    | NotOpened                           // flush (or send with auto-flush) while not open
    | WriteFailed
    | ReadNotOpened
    | InvalidOs

  /** The one external action an operation attempts. */
  datatype Effect =
    | Exec(command: string)
    | Fopen(path: string, mode: string)
    | Fclose
    | Fwrite(data: string)

  /** Outcome of one operation. On an exception `dev` is the record as the
      exception leaves it. */
  datatype Step = Step(dev: Device, effect: Option<Effect>, error: Option<Error>) {
    predicate Ok() {
      error.None?
    }
  }

  /** A nullable string inside a string concatenation: null reads as "". */
  function Text(s: Option<string>): string {
    match s
    case Some(t) => t
    case None => ""
  }

  // ---------------------------------------------------------------------
  // Well-formed records
  // ---------------------------------------------------------------------

  /** The Windows names of one port: `COM<digits>` and `\.\com<digits>`. */
  predicate WindowsNames(winDevice: string, device: string) {
    && |winDevice| >= 4
    && winDevice[..3] == "COM"
    && IsDigits(winDevice[3..])
    && device == "\\.\\com" + winDevice[3..]
  }

  /** What holds of every record the operations can produce from a new one. */
  predicate Valid(d: Device) {
    && d.state != Closed
    && (d.handle.Some? <==> d.state == Opened)
    && (d.device.Some? <==> d.state != NotSet)
    && (d.state != NotSet ==> d.os != OsNotSet)
    && (d.winDevice.Some? <==> d.os == Windows && d.state != NotSet)
    && (d.winDevice.Some? ==> WindowsNames(d.winDevice.value, Text(d.device)))
    && (d.handle.Some? ==> d.handle.value.path == Text(d.device))
  }

  lemma NewDeviceValid(os: Os)
    ensures Valid(NewDevice(os))
    ensures NewDevice(os).state == NotSet && NewDevice(os).buffer == ""
  {
  }

  // ---------------------------------------------------------------------
  // Setting the device
  // ---------------------------------------------------------------------

  /** On Linux a COM name `COM<n>` designates `/dev/ttyS<n-1>`; any other
      name is used as given. */
  function LinuxDevicePath(name: string): (p: string)
    ensures ComDigits(name).None? ==> p == name
    ensures ComDigits(name).Some? ==> |p| >= 10 && p[..9] == "/dev/ttyS"
    ensures ComDigits(name).Some? && ParseDigits(ComDigits(name).value) >= 1 ==>
              IsDigits(p[9..]) && ParseDigits(p[9..]) == ParseDigits(ComDigits(name).value) - 1
  {
    match ComDigits(name)
    case Some(ds) =>
      var p := "/dev/ttyS" + IntToString(ParseDigits(ds) - 1);
      assert p[9..] == IntToString(ParseDigits(ds) - 1);
      p
    case None => name
  }

  /** The command that checks a device name before it is accepted: `stty`
      on the path on Linux and macOS, `mode` on the name on Windows, and
      none for a Windows name that is not a COM name or an unknown OS. */
  function ProbeCommand(os: Os, name: string): (c: Option<string>)
    ensures c.Some? <==> os == Linux || os == Mac || (os == Windows && ComDigits(name).Some?)
    ensures os == Windows && c.Some? ==> c.value == "mode " + name + " xon=on BAUD=9600"
  {
    match os
    case Linux => Some("stty -F " + LinuxDevicePath(name))
    case Mac => Some("stty -f " + name)
    case Windows => if ComDigits(name).Some? then Some("mode " + name + " xon=on BAUD=9600") else None
    case OsNotSet => None
  }

  /** Records the device to use. Refused while the device is open; otherwise
      the name is accepted exactly when its probe command runs and exits 0. */
  function DeviceSet(d: Device, name: string, probeExit: int): (r: Step)
    ensures d.state == Opened ==> r == Step(d, None, Some(DeviceBusy))
    ensures d.state != Opened ==> r.effect == (match ProbeCommand(d.os, name)
                                               case Some(c) => Some(Exec(c))
                                               case None => None)
    ensures r.Ok() <==> d.state != Opened && ProbeCommand(d.os, name).Some? && probeExit == 0
    ensures d.state != Opened && !r.Ok() ==> r.error == Some(InvalidDevice)
    ensures !r.Ok() ==> r.dev == d
    ensures r.Ok() ==> r.dev == d.(state := Set, device := r.dev.device, winDevice := r.dev.winDevice)
    ensures r.Ok() && d.os == Linux ==> r.dev.device == Some(LinuxDevicePath(name)) && r.dev.winDevice == d.winDevice
    ensures r.Ok() && d.os == Mac ==> r.dev.device == Some(name) && r.dev.winDevice == d.winDevice
    ensures r.Ok() && d.os == Windows ==>
              && WindowsNames(Text(r.dev.winDevice), Text(r.dev.device))
              && r.dev.winDevice == Some("COM" + ComDigits(name).value)
  {
    if d.state == Opened then Step(d, None, Some(DeviceBusy))
    else
      match d.os
      case Linux =>
        var path := LinuxDevicePath(name);
        if probeExit == 0 then Step(d.(device := Some(path), state := Set), Some(Exec("stty -F " + path)), None)
        else Step(d, Some(Exec("stty -F " + path)), Some(InvalidDevice))
      case Mac =>
        if probeExit == 0 then Step(d.(device := Some(name), state := Set), Some(Exec("stty -f " + name)), None)
        else Step(d, Some(Exec("stty -f " + name)), Some(InvalidDevice))
      case Windows =>
        (match ComDigits(name)
         case None => Step(d, None, Some(InvalidDevice))
         case Some(ds) =>
           var probe := Exec("mode " + name + " xon=on BAUD=9600");
           if probeExit == 0 then
             var win := "COM" + ds;
             assert win[3..] == ds;
             Step(d.(winDevice := Some(win), device := Some("\\.\\com" + ds), state := Set), Some(probe), None)
           else Step(d, Some(probe), Some(InvalidDevice)))
      case OsNotSet => Step(d, None, Some(InvalidDevice))
  }

  /** `COM<digits>` in any case, with an optional colon (and the newline
      `$` tolerates), names `/dev/ttyS<n-1>` on Linux, where n is the value
      of the digits; leading zeros are allowed, as `\d+` allows them. */
  lemma LinuxComRewrite(word: string, ds: string, tail: string)
    requires IsComWord(word) && tail in ComTails
    requires |ds| >= 1 && IsDigits(ds)
    ensures LinuxDevicePath(word + ds + tail) == "/dev/ttyS" + IntToString(ParseDigits(ds) - 1)
  {
    ComDigitsComplete(word, ds, tail);
    LinuxDevicePathOfDigits(word + ds + tail, ds);
  }

  lemma LinuxDevicePathOfDigits(name: string, ds: string)
    requires ComDigits(name) == Some(ds)
    ensures LinuxDevicePath(name) == "/dev/ttyS" + IntToString(ParseDigits(ds) - 1)
  {
  }

  /** On Linux and macOS the name is probed with exactly the command prefix
      the configuration operations later use on the recorded device. */
  lemma ProbeUsesConfigPrefix(d: Device, name: string, probeExit: int)
    requires UsesStty(d.os) && DeviceSet(d, name, probeExit).Ok()
    ensures DeviceSet(d, name, probeExit).effect == Some(Exec(ConfigPrefix(DeviceSet(d, name, probeExit).dev)))
  {
  }

  // ---------------------------------------------------------------------
  // Opening and closing
  // ---------------------------------------------------------------------

  /** Opens the set device in an fopen mode. The checks run in a fixed
      order: already open, not set, malformed mode, then the open itself. */
  function DeviceOpen(d: Device, mode: string, fopenOk: bool): (r: Step)
    ensures d.state == Opened ==> r == Step(d, None, Some(AlreadyOpened))
    ensures d.state == NotSet ==> r == Step(d, None, Some(DeviceNotSet))
    ensures (d.state == Set || d.state == Closed) && !IsOpenMode(mode) ==> r == Step(d, None, Some(InvalidOpenMode(mode)))
    ensures (d.state == Set || d.state == Closed) && IsOpenMode(mode) ==> r.effect == Some(Fopen(Text(d.device), mode))
    ensures r.Ok() <==> (d.state == Set || d.state == Closed) && IsOpenMode(mode) && fopenOk
    ensures (d.state == Set || d.state == Closed) && IsOpenMode(mode) && !fopenOk ==> r.error == Some(OpenFailed(Text(d.device), mode))
    ensures !r.Ok() ==> r.dev == d
    ensures r.Ok() ==> r.dev == d.(state := Opened, handle := Some(Handle(Text(d.device), mode)))
  {
    match d.state
    case Opened => Step(d, None, Some(AlreadyOpened))
    case NotSet => Step(d, None, Some(DeviceNotSet))
    case _ =>
      if !IsOpenMode(mode) then Step(d, None, Some(InvalidOpenMode(mode)))
      else
        var path := Text(d.device);
        if !fopenOk then Step(d, Some(Fopen(path, mode)), Some(OpenFailed(path, mode)))
        else Step(d.(handle := Some(Handle(path, mode)), state := Opened), Some(Fopen(path, mode)), None)
  }

  /** Closes the stream. Nothing happens unless the device is open; a
      successful close drops the stream and returns the device to `Set`. */
  function DeviceClose(d: Device, fcloseOk: bool): (r: Step)
    ensures d.state != Opened ==> r == Step(d, None, None)
    ensures d.state == Opened ==> r.effect == Some(Fclose)
    ensures r.Ok() <==> d.state != Opened || fcloseOk
    ensures !r.Ok() ==> r.dev == d && r.error == Some(CloseFailed)
    ensures d.state == Opened && fcloseOk ==> r.dev == d.(state := Set, handle := None)
  {
    if d.state != Opened then Step(d, None, None)
    else if fcloseOk then Step(d.(handle := None, state := Set), Some(Fclose), None)
    else Step(d, Some(Fclose), Some(CloseFailed))
  }

  // ---------------------------------------------------------------------
  // Configuration
  // ---------------------------------------------------------------------

  /** Linux and macOS configure the line with `stty`, Windows with `mode`. */
  predicate UsesStty(os: Os) {
    os == Linux || os == Mac
  }

  /** The tool and target every configuration command starts with: `stty`
      on the device path on Linux (`-F`) and macOS (`-f`), `mode` on the COM
      name otherwise. */
  function ConfigPrefix(d: Device): string {
    match d.os
    case Linux => "stty -F " + Text(d.device)
    case Mac => "stty -f " + Text(d.device)
    case _ => "mode " + Text(d.winDevice)
  }

  /** The configuration command line carrying `args`. */
  function ConfigCommand(d: Device, args: string): string {
    ConfigPrefix(d) + " " + args
  }

  /** The arguments can be read back off a configuration command. */
  lemma ConfigCommandInjective(d: Device, x: string, y: string)
    ensures ConfigCommand(d, x) == ConfigCommand(d, y) ==> x == y
  {
    var n := |ConfigPrefix(d)| + 1;
    assert ConfigCommand(d, x)[n..] == x;
    assert ConfigCommand(d, y)[n..] == y;
  }

  /** Runs a configuration command; a non-zero exit raises, the record is
      untouched either way. */
  function RunConfig(d: Device, setting: Setting, args: string, exit: int): Step {
    Step(d, Some(Exec(ConfigCommand(d, args))), if exit == 0 then None else Some(CommandFailed(setting)))
  }

  /** Sets the baud rate. The state is checked first, then the rate against
      the table; an unknown OS skips the command. */
  function ConfBaudRate(d: Device, rate: int, exit: int): (r: Step)
    ensures r.dev == d
    ensures d.state != Set ==> r.effect.None? && r.error == Some(NotConfigurable(BaudRate))
    ensures d.state == Set && rate !in SupportedRates ==> r.effect.None? && r.error == Some(UnknownBaudRate(rate))
    ensures d.state == Set && rate in SupportedRates && d.os == OsNotSet ==> r.effect.None? && r.Ok()
    ensures r.Ok() <==> d.state == Set && rate in SupportedRates && (d.os == OsNotSet || exit == 0)
    ensures d.state == Set && rate in SupportedRates && UsesStty(d.os) ==>
              r.effect == Some(Exec(ConfigCommand(d, IntToString(rate))))
    ensures d.state == Set && rate in SupportedRates && d.os == Windows ==>
              r.effect == Some(Exec(ConfigCommand(d, "BAUD=" + WindowsBaudCode(rate))))
    ensures r.error.Some? && r.effect.Some? ==> r.error == Some(CommandFailed(BaudRate))
  {
    BaudTableCoversSupportedRates(rate);
    if d.state != Set then Step(d, None, Some(NotConfigurable(BaudRate)))
    else if BaudTableEntry(rate).None? then Step(d, None, Some(UnknownBaudRate(rate)))
    else
      match d.os
      case Linux => RunConfig(d, BaudRate, IntToString(rate), exit)
      case Mac => RunConfig(d, BaudRate, IntToString(rate), exit)
      case Windows => RunConfig(d, BaudRate, "BAUD=" + WindowsBaudCode(rate), exit)
      case OsNotSet => Step(d, None, None)
  }

  /** Different rates never produce the same command, on any platform
      that runs one. */
  lemma BaudCommandDeterminesRate(d: Device, a: int, b: int, exit: int)
    requires d.state == Set && d.os != OsNotSet
    requires a in SupportedRates && b in SupportedRates
    ensures ConfBaudRate(d, a, exit).effect == ConfBaudRate(d, b, exit).effect ==> a == b
  {
    if ConfBaudRate(d, a, exit).effect == ConfBaudRate(d, b, exit).effect {
      if UsesStty(d.os) {
        ConfigCommandInjective(d, IntToString(a), IntToString(b));
        IntToStringInjective(a, b);
      } else {
        var x, y := WindowsBaudCode(a), WindowsBaudCode(b);
        ConfigCommandInjective(d, "BAUD=" + x, "BAUD=" + y);
        assert ("BAUD=" + x)[5..] == x;
        assert ("BAUD=" + y)[5..] == y;
        WindowsBaudCodeInjective(a, b);
      }
    }
  }

  /** Sets the parity from its name: `none`, `odd` or `even`. */
  function ConfParity(d: Device, name: string, exit: int): (r: Step)
    ensures r.dev == d
    ensures d.state != Set ==> r.effect.None? && r.error == Some(NotConfigurable(Parity))
    ensures d.state == Set && ParityNamed(name).None? ==> r.effect.None? && r.error == Some(UnsupportedParity)
    ensures r.Ok() <==> d.state == Set && ParityNamed(name).Some? && exit == 0
    ensures d.state == Set && ParityNamed(name).Some? && UsesStty(d.os) ==>
              r.effect == Some(Exec(ConfigCommand(d, ParitySttyArgs(ParityNamed(name).value))))
    ensures d.state == Set && ParityNamed(name).Some? && !UsesStty(d.os) ==>
              r.effect == Some(Exec(ConfigCommand(d, "PARITY=" + [name[0]])))
    ensures r.error.Some? && r.effect.Some? ==> r.error == Some(CommandFailed(Parity))
  {
    if d.state != Set then Step(d, None, Some(NotConfigurable(Parity)))
    else
      match ParityNamed(name)
      case None => Step(d, None, Some(UnsupportedParity))
      case Some(p) =>
        if UsesStty(d.os) then RunConfig(d, Parity, ParitySttyArgs(p), exit)
        else RunConfig(d, Parity, "PARITY=" + [name[0]], exit)
  }

  /** Sets the number of data bits, moving values outside 5..8 to the
      nearest bound instead of refusing them. */
  function ConfCharacterLength(d: Device, n: int, exit: int): (r: Step)
    ensures r.dev == d
    ensures d.state != Set ==> r.effect.None? && r.error == Some(NotConfigurable(CharacterLength))
    ensures r.Ok() <==> d.state == Set && exit == 0
    ensures d.state == Set && 5 <= n <= 8 ==> r.effect == Some(Exec(ConfigCommand(d,
              (if UsesStty(d.os) then "cs" else "DATA=") + NatToString(n))))
    ensures r.error.Some? && r.effect.Some? ==> r.error == Some(CommandFailed(CharacterLength))
  {
    if d.state != Set then Step(d, None, Some(NotConfigurable(CharacterLength)))
    else
      var c := ClampLength(n);
      if UsesStty(d.os) then RunConfig(d, CharacterLength, "cs" + NatToString(c), exit)
      else RunConfig(d, CharacterLength, "DATA=" + NatToString(c), exit)
  }

  /** Sets the stop-bit length: 1, 1.5 or 2. `stty` only distinguishes one
      stop bit from more than one. */
  function ConfStopBits(d: Device, length: real, exit: int): (r: Step)
    ensures r.dev == d
    ensures d.state != Set ==> r.effect.None? && r.error == Some(NotConfigurable(StopBits))
    ensures d.state == Set && StopLengthOf(length).None? ==> r.effect.None? && r.error == Some(InvalidStopBits)
    ensures r.Ok() <==> d.state == Set && StopLengthOf(length).Some? && exit == 0
    ensures d.state == Set && StopLengthOf(length).Some? && UsesStty(d.os) ==>
              r.effect == Some(Exec(ConfigCommand(d, SttyFlag("cstopb", length != 1.0))))
    ensures d.state == Set && StopLengthOf(length).Some? && !UsesStty(d.os) ==>
              r.effect == Some(Exec(ConfigCommand(d, "STOP=" + StopText(StopLengthOf(length).value))))
    ensures r.error.Some? && r.effect.Some? ==> r.error == Some(CommandFailed(StopBits))
  {
    if d.state != Set then Step(d, None, Some(NotConfigurable(StopBits)))
    else
      match StopLengthOf(length)
      case None => Step(d, None, Some(InvalidStopBits))
      case Some(s) =>
        if UsesStty(d.os) then RunConfig(d, StopBits, StopSttyArg(s), exit)
        else RunConfig(d, StopBits, "STOP=" + StopText(s), exit)
  }

  /** `stty` cannot express 1.5 stop bits: asking for them does exactly
      what asking for 2 does. On Windows the two commands differ. */
  lemma StopBitsOneAndHalfAsTwo(d: Device, exit: int)
    requires UsesStty(d.os)
    ensures ConfStopBits(d, 1.5, exit) == ConfStopBits(d, 2.0, exit)
  {
  }

  /** Sets flow control from its name: `none`, `rts/cts` or `xon/xoff`. */
  function ConfFlowControl(d: Device, name: string, exit: int): (r: Step)
    ensures r.dev == d
    ensures d.state != Set ==> r.effect.None? && r.error == Some(NotConfigurable(FlowControl))
    ensures d.state == Set && FlowNamed(name).None? ==> r.effect.None? && r.error == Some(InvalidFlowControl)
    ensures r.Ok() <==> d.state == Set && FlowNamed(name).Some? && exit == 0
    ensures d.state == Set && FlowNamed(name).Some? && UsesStty(d.os) ==>
              r.effect == Some(Exec(ConfigCommand(d, FlowSttyArgs(FlowNamed(name).value))))
    ensures d.state == Set && FlowNamed(name).Some? && !UsesStty(d.os) ==>
              r.effect == Some(Exec(ConfigCommand(d, FlowModeArgs(FlowNamed(name).value))))
    ensures r.error.Some? && r.effect.Some? ==> r.error == Some(CommandFailed(FlowControl))
  {
    if d.state != Set then Step(d, None, Some(NotConfigurable(FlowControl)))
    else
      match FlowNamed(name)
      case None => Step(d, None, Some(InvalidFlowControl))
      case Some(m) =>
        if UsesStty(d.os) then RunConfig(d, FlowControl, FlowSttyArgs(m), exit)
        else RunConfig(d, FlowControl, FlowModeArgs(m), exit)
  }

  /** Lengths below 5 configure exactly what 5 does. */
  lemma CharacterLengthBelowRange(d: Device, n: int, exit: int)
    requires n < 5
    ensures ConfCharacterLength(d, n, exit) == ConfCharacterLength(d, 5, exit)
  {
  }

  /** Lengths above 8 configure exactly what 8 does. */
  lemma CharacterLengthAboveRange(d: Device, n: int, exit: int)
    requires n > 8
    ensures ConfCharacterLength(d, n, exit) == ConfCharacterLength(d, 8, exit)
  {
  }

  // ---------------------------------------------------------------------
  // Writing and the read gate
  // ---------------------------------------------------------------------

  /** The guard in front of every write: the device must be open. */
  function EnsureOpen(d: Device): (r: Option<Error>)
    ensures r.None? <==> d.state == Opened
    ensures r.Some? ==> r.value == NotOpened
  {
    if d.state != Opened then Some(NotOpened) else None
  }

  /** Writes the whole buffer to the stream. Refused, buffer kept, unless
      the device is open; once open the buffer is emptied whether or not
      the write succeeds, and a failed write raises. */
  function SerialFlush(d: Device, fwriteOk: bool): (r: Step)
    ensures d.state != Opened ==> r == Step(d, None, Some(NotOpened))
    ensures d.state == Opened ==> r.dev == d.(buffer := "") && r.effect == Some(Fwrite(d.buffer))
    ensures r.Ok() <==> d.state == Opened && fwriteOk
    ensures d.state == Opened && !fwriteOk ==> r.error == Some(WriteFailed)
  {
    match EnsureOpen(d)
    case Some(e) => Step(d, None, Some(e))
    case None => Step(d.(buffer := ""), Some(Fwrite(d.buffer)), if fwriteOk then None else Some(WriteFailed))
  }

  /** Appends a message to the buffer and, with auto-flush on, flushes it.
      The message is queued before the flush is attempted, so on a device
      that is not open it stays in the buffer. */
  function SendMessage(d: Device, message: string, fwriteOk: bool): (r: Step)
    ensures !d.autoFlush ==> r == Step(d.(buffer := d.buffer + message), None, None)
    ensures d.autoFlush && d.state == Opened ==>
              && r.dev == d.(buffer := "")
              && r.effect == Some(Fwrite(d.buffer + message))
              && (r.Ok() <==> fwriteOk)
              && (!fwriteOk ==> r.error == Some(WriteFailed))
    ensures d.autoFlush && d.state != Opened ==>
              r == Step(d.(buffer := d.buffer + message), None, Some(NotOpened))
  {
    var queued := d.(buffer := d.buffer + message);
    if queued.autoFlush then SerialFlush(queued, fwriteOk) else Step(queued, None, None)
  }

  /** The checks reading performs before touching the stream: the device
      must be open and the OS known. What is read is outside the model. */
  function ReadPortGuard(d: Device): (r: Option<Error>)
    ensures r.None? <==> d.state == Opened && d.os != OsNotSet
    ensures d.state != Opened ==> r == Some(ReadNotOpened)
  {
    if d.state != Opened then Some(ReadNotOpened)
    else
      match d.os
      case OsNotSet => Some(InvalidOs)
      case _ => None
  }

}

=== FILE: session.dfy ===
/** Sequences of operations on one device, each with the outside world's
    answer, as a caller that catches every exception and carries on would
    issue them. */
module Session {

  import opened Wrappers
  import opened Enums
  import opened Patterns
  import opened Serial

  /** One public operation with its argument and the answer of the outside
      world it consults (exit code of the command, or whether fopen, fclose
      or fwrite succeeded), or an assignment to the public `autoFlush`
      property, the only way to switch automatic flushing off. */
  datatype Call =
    | SetDevice(name: string, probeExit: int)
    | Open(mode: string, fopenOk: bool)
    | Close(fcloseOk: bool)
    | SetBaudRate(rate: int, exit: int)
    | SetParity(parity: string, exit: int)
    | SetCharacterLength(length: int, exit: int)
    | SetStopBits(stopBits: real, exit: int)
    | SetFlowControl(flow: string, exit: int)
    | Send(message: string, fwriteOk: bool)
    | Flush(fwriteOk: bool)
    | SetAutoFlush(on: bool)
  {
    predicate IsConfiguration() {
      SetBaudRate? || SetParity? || SetCharacterLength? || SetStopBits? || SetFlowControl?
    }
  }

  function Apply(d: Device, c: Call): Step {
    match c
    case SetDevice(name, probeExit) => DeviceSet(d, name, probeExit)
    case Open(mode, ok) => DeviceOpen(d, mode, ok)
    case Close(ok) => DeviceClose(d, ok)
    case SetBaudRate(rate, exit) => ConfBaudRate(d, rate, exit)
    case SetParity(parity, exit) => ConfParity(d, parity, exit)
    case SetCharacterLength(n, exit) => ConfCharacterLength(d, n, exit)
    case SetStopBits(length, exit) => ConfStopBits(d, length, exit)
    case SetFlowControl(flow, exit) => ConfFlowControl(d, flow, exit)
    case Send(message, ok) => SendMessage(d, message, ok)
    case Flush(ok) => SerialFlush(d, ok)
    case SetAutoFlush(on) => Step(d.(autoFlush := on), None, None)
  }

  /** The record after the calls, exceptions caught and ignored. */
  function Run(d: Device, calls: seq<Call>): Device
    decreases |calls|
  {
    if calls == [] then d else Run(Apply(d, calls[0]).dev, calls[1..])
  }

  /** The external actions the calls attempt, in order. */
  function Effects(d: Device, calls: seq<Call>): seq<Effect>
    decreases |calls|
  {
    if calls == [] then []
    else
      var step := Apply(d, calls[0]);
      (match step.effect case Some(e) => [e] case None => []) + Effects(step.dev, calls[1..])
  }

  /** Every operation keeps a well-formed record well-formed, whatever
      the outside world answers. */
  lemma ApplyPreservesValid(d: Device, c: Call)
    requires Valid(d)
    ensures Valid(Apply(d, c).dev)
  {
    if c.SetDevice? && d.state != Opened && d.os == Windows {
      var r := Apply(d, c);
      if r.Ok() {
        var ds := ComDigits(c.name).value;
        assert ("COM" + ds)[3..] == ds;
      }
    }
  }

  /** Well-formedness is an invariant of every session. */
  lemma {:induction false} RunPreservesValid(d: Device, calls: seq<Call>)
    requires Valid(d)
    ensures Valid(Run(d, calls))
    decreases |calls|
  {
    if calls != [] {
      ApplyPreservesValid(d, calls[0]);
      RunPreservesValid(Apply(d, calls[0]).dev, calls[1..]);
    }
  }

  /** A well-formed device is open exactly when it holds a stream, after
      any session starting from a new object. */
  lemma HandleIffOpened(os: Os, calls: seq<Call>)
    ensures var d := Run(NewDevice(os), calls);
            (d.handle.Some? <==> d.state == Opened) && d.state != Closed
  {
    NewDeviceValid(os);
    RunPreservesValid(NewDevice(os), calls);
  }

  /** Opening succeeds only from `Set`, on a well-formed record; from the
      other states it fails with the state's own error. */
  lemma OpenOnlyFromSet(d: Device, mode: string, fopenOk: bool)
    requires Valid(d)
    ensures Apply(d, Open(mode, fopenOk)).Ok() ==> d.state == Set
    ensures d.state == NotSet ==> Apply(d, Open(mode, fopenOk)).error == Some(DeviceNotSet)
    ensures d.state == Opened ==> Apply(d, Open(mode, fopenOk)).error == Some(AlreadyOpened)
  {
  }

  /** Opening then closing a set device gives back the very same record,
      so a device can be reopened any number of times. */
  lemma OpenCloseRoundTrip(d: Device, mode: string)
    requires Valid(d) && d.state == Set && IsOpenMode(mode)
    ensures Run(d, [Open(mode, true), Close(true)]) == d
    ensures Effects(d, [Open(mode, true), Close(true)]) == [Fopen(Text(d.device), mode), Fclose]
  {
    var open := Apply(d, Open(mode, true)).dev;
    assert [Open(mode, true), Close(true)][1..] == [Close(true)];
    assert Run(open, [Close(true)]) == Apply(open, Close(true)).dev;
  }

  /** Configuration never changes the record, whatever the calls and the
      exit codes: a caller may retry freely. */
  lemma {:induction false} ConfigurationKeepsRecord(d: Device, calls: seq<Call>)
    requires forall i :: 0 <= i < |calls| ==> calls[i].IsConfiguration()
    ensures Run(d, calls) == d
    decreases |calls|
  {
    if calls != [] {
      assert Apply(d, calls[0]).dev == d;
      ConfigurationKeepsRecord(d, calls[1..]);
    }
  }

  /** A configuration call runs a command only when the device is `Set`. */
  lemma ConfigurationRunsOnlyWhenSet(d: Device, c: Call)
    requires c.IsConfiguration()
    ensures Apply(d, c).effect.Some? ==> d.state == Set && Apply(d, c).effect.value.Exec?
    ensures d.state != Set ==> Apply(d, c).error.value.NotConfigurable?
  {
  }

  /** Automatic flushing changes only by assigning the property: no
      operation touches it. */
  lemma {:induction false} AutoFlushKeptWithoutAssignment(d: Device, calls: seq<Call>)
    requires forall i :: 0 <= i < |calls| ==> !calls[i].SetAutoFlush?
    ensures Run(d, calls).autoFlush == d.autoFlush
    decreases |calls|
  {
    if calls != [] {
      assert Apply(d, calls[0]).dev.autoFlush == d.autoFlush;
      AutoFlushKeptWithoutAssignment(Apply(d, calls[0]).dev, calls[1..]);
    }
  }

  /** Switching automatic flushing off touches nothing else and nothing
      outside, so the sends of `SendsQueue` are reachable from a new object. */
  lemma ManualFlushReachable(os: Os)
    ensures Run(NewDevice(os), [SetAutoFlush(false)]) == NewDevice(os).(autoFlush := false)
    ensures Effects(NewDevice(os), [SetAutoFlush(false)]) == []
  {
  }

  /** The messages of a run of sends, concatenated. */
  function Queued(calls: seq<Call>): string
    requires forall i :: 0 <= i < |calls| ==> calls[i].Send?
  {
    if calls == [] then "" else calls[0].message + Queued(calls[1..])
  }

  /** Without auto-flush, sends only append to the buffer and touch
      nothing outside. */
  lemma {:induction false} SendsQueue(d: Device, calls: seq<Call>)
    requires !d.autoFlush
    requires forall i :: 0 <= i < |calls| ==> calls[i].Send?
    ensures Run(d, calls) == d.(buffer := d.buffer + Queued(calls))
    ensures Effects(d, calls) == []
    decreases |calls|
  {
    if calls == [] {
      assert d.buffer + "" == d.buffer;
    } else {
      var next := Apply(d, calls[0]).dev;
      assert next == d.(buffer := d.buffer + calls[0].message);
      SendsQueue(next, calls[1..]);
      assert next.buffer + Queued(calls[1..]) == d.buffer + Queued(calls);
    }
  }

  /** Queued sends followed by a flush on an open device write everything
      queued, in order, in one write, and leave the buffer empty. */
  lemma SendsThenFlush(d: Device, calls: seq<Call>, fwriteOk: bool)
    requires !d.autoFlush && d.state == Opened
    requires forall i :: 0 <= i < |calls| ==> calls[i].Send?
    ensures SerialFlush(Run(d, calls), fwriteOk).dev == d.(buffer := "")
    ensures SerialFlush(Run(d, calls), fwriteOk).effect == Some(Fwrite(d.buffer + Queued(calls)))
  {
    SendsQueue(d, calls);
  }

}

=== FILE: tables.dfy ===
/** The fixed tables the configuration operations translate through, and
    the line settings each table entry stands for. */
module Tables {

  import opened Wrappers
  import opened Decimal

  // ---------------------------------------------------------------------
  // Rendering of command-line flags
  // ---------------------------------------------------------------------

  /** An `stty` flag: its bare name turns the setting on, `-name` turns it off. */
  function SttyFlag(name: string, on: bool): string {
    if on then name else "-" + name
  }

  /** Words joined by single spaces. */
  function Words(ws: seq<string>): string {
    if |ws| == 0 then "" else if |ws| == 1 then ws[0] else Words(ws[..|ws| - 1]) + " " + ws[|ws| - 1]
  }

  lemma WordsOfThree(a: string, b: string, c: string)
    ensures Words([a, b, c]) == a + " " + b + " " + c
  {
    assert [a, b, c][..2] == [a, b];
    assert [a, b][..1] == [a];
    assert Words([a, b]) == a + " " + b;
  }

  lemma WordsOfFour(a: string, b: string, c: string, d: string)
    ensures Words([a, b, c, d]) == a + " " + b + " " + c + " " + d
  {
    assert [a, b, c, d][..3] == [a, b, c];
    WordsOfThree(a, b, c);
  }

  /** A Windows `mode` switch `key=on` / `key=off`. */
  function OnOff(key: string, on: bool): string {
    key + "=" + (if on then "on" else "off")
  }

  // ---------------------------------------------------------------------
  // Baud rate
  // ---------------------------------------------------------------------

  /** Rates up to 19200 with the two-digit code Windows' `mode BAUD=` takes. */
  const WindowsBaudCodes: map<int, int> :=
    map[110 := 11, 150 := 15, 300 := 30, 600 := 60, 1200 := 12,
        2400 := 24, 4800 := 48, 9600 := 96, 19200 := 19]

  /** Rates above 19200, which every platform takes literally. */
  const ExtraBauds: seq<int> :=
    [38400, 57600, 115200, 230400, 460800, 500000, 576000, 921600, 1000000,
     1152000, 1500000, 2000000, 2500000, 3000000, 3500000, 4000000]

  /** The lookup table: the short code of a low rate, each extra rate
      mapped to itself, nothing for any other integer. */
  function BaudTableEntry(rate: int): (r: Option<int>)
    ensures r.Some? ==> rate >= 110
    ensures r.Some? && rate <= 19200 ==> r.value == LeadingTwoDigits(rate)
    ensures r.Some? && rate > 19200 ==> r.value == rate
  {
    if rate in WindowsBaudCodes then Some(WindowsBaudCodes[rate])
    else if rate in ExtraBauds then Some(rate)
    else None
  }

  /** The 25 rates the serial class supports. */
  const SupportedRates: set<int> :=
    {110, 150, 300, 600, 1200, 2400, 4800, 9600, 19200, 38400, 57600, 115200,
     230400, 460800, 500000, 576000, 921600, 1000000, 1152000, 1500000,
     2000000, 2500000, 3000000, 3500000, 4000000}

  /** The table has an entry for exactly the 25 supported rates. */
  lemma BaudTableCoversSupportedRates(rate: int)
    ensures BaudTableEntry(rate).Some? <==> rate in SupportedRates
  {
  }

  /** The number formed by the first two decimal digits of `n`. */
  function LeadingTwoDigits(n: nat): (m: nat)
    requires n >= 10
    ensures 10 <= m < 100
  {
    if n < 100 then n else LeadingTwoDigits(n / 10)
  }

  /** Printing `n` and keeping two characters prints its leading two digits. */
  lemma {:induction false} LeadingTwoDigitsPrinted(n: nat)
    requires n >= 10
    ensures NatToString(n)[..2] == NatToString(LeadingTwoDigits(n))
  {
    var s := NatToString(n);
    assert s == NatToString(n / 10) + [DigitChar(n % 10)];
    if n < 100 {
      assert |NatToString(n / 10)| == 1;
    } else {
      LeadingTwoDigitsPrinted(n / 10);
      assert s[..2] == NatToString(n / 10)[..2];
    }
  }

  /** Each low rate's code is the rate's first two decimal digits. */
  lemma LowCodeIsLeadingDigits(rate: int)
    requires rate in WindowsBaudCodes
    ensures NatToString(WindowsBaudCodes[rate]) == NatToString(rate)[..2]
  {
    assert WindowsBaudCodes[rate] == LeadingTwoDigits(rate);
    LeadingTwoDigitsPrinted(rate);
  }

  /** The value passed to Windows' `BAUD=` for a supported rate: the first
      two digits of the rate up to 19200, the rate itself above. */
  function WindowsBaudCode(rate: int): (code: string)
    requires rate in SupportedRates
    ensures rate <= 19200 ==> code == NatToString(rate)[..2]
    ensures rate > 19200 ==> code == NatToString(rate)
  {
    BaudTableCoversSupportedRates(rate);
    if rate in WindowsBaudCodes then
      LowCodeIsLeadingDigits(rate);
      NatToString(WindowsBaudCodes[rate])
    else
      NatToString(BaudTableEntry(rate).value)
  }

  /** No two low rates share a code. */
  lemma LowCodesDistinct(a: int, b: int)
    requires a in WindowsBaudCodes && b in WindowsBaudCodes
    ensures WindowsBaudCodes[a] == WindowsBaudCodes[b] ==> a == b
  {
    assert WindowsBaudCodes[a] == LeadingTwoDigits(a);
    assert WindowsBaudCodes[b] == LeadingTwoDigits(b);
  }

  /** The table never maps two rates to the same value. */
  lemma BaudTableEntryInjective(a: int, b: int)
    requires BaudTableEntry(a).Some? && BaudTableEntry(b).Some?
    ensures BaudTableEntry(a) == BaudTableEntry(b) ==> a == b
  {
    if a in WindowsBaudCodes && b in WindowsBaudCodes {
      LowCodesDistinct(a, b);
    } else if a in WindowsBaudCodes {
      assert BaudTableEntry(a).value < 100 <= BaudTableEntry(b).value;
    } else if b in WindowsBaudCodes {
      assert BaudTableEntry(b).value < 100 <= BaudTableEntry(a).value;
    }
  }

  /** The Windows code of a rate is its table value printed in decimal. */
  lemma WindowsBaudCodeIsEntry(rate: int)
    requires rate in SupportedRates
    ensures BaudTableEntry(rate).Some?
    ensures WindowsBaudCode(rate) == NatToString(BaudTableEntry(rate).value)
  {
    BaudTableCoversSupportedRates(rate);
  }

  /** Different supported rates get different Windows codes, so the
      `mode` command determines the rate. */
  lemma WindowsBaudCodeInjective(a: int, b: int)
    requires a in SupportedRates && b in SupportedRates
    ensures WindowsBaudCode(a) == WindowsBaudCode(b) ==> a == b
  {
    WindowsBaudCodeIsEntry(a);
    WindowsBaudCodeIsEntry(b);
    EntryPrintInjective(a, b);
  }

  /** Printed table values identify the rate. */
  lemma EntryPrintInjective(a: int, b: int)
    requires BaudTableEntry(a).Some? && BaudTableEntry(b).Some?
    ensures NatToString(BaudTableEntry(a).value) == NatToString(BaudTableEntry(b).value) ==> a == b
  {
    var ea, eb := BaudTableEntry(a).value, BaudTableEntry(b).value;
    assert ea >= 0 && eb >= 0;
    NatToStringInjective(ea, eb);
    BaudTableEntryInjective(a, b);
  }

  // ---------------------------------------------------------------------
  // Parity
  // ---------------------------------------------------------------------

  datatype ParityMode = NoParity | OddParity | EvenParity

  function ParityName(p: ParityMode): string {
    match p
    case NoParity => "none"
    case OddParity => "odd"
    case EvenParity => "even"
  }

  /** The parity mode a name selects; only the three table keys do. */
  function ParityNamed(name: string): (r: Option<ParityMode>)
    ensures r.Some? <==> name in {"none", "odd", "even"}
    ensures r.Some? ==> ParityName(r.value) == name
  {
    if name == "none" then Some(NoParity)
    else if name == "odd" then Some(OddParity)
    else if name == "even" then Some(EvenParity)
    else None
  }

  /** The `stty` arguments for a parity mode: `parenb` enables parity
      and, when enabled, `parodd` selects odd over even. */
  function ParitySttyArgs(p: ParityMode): (args: string)
    ensures args == Words([SttyFlag("parenb", p != NoParity)]
                          + (if p == NoParity then [] else [SttyFlag("parodd", p == OddParity)]))
  {
    match p
    case NoParity => "-parenb"
    case OddParity => "parenb parodd"
    case EvenParity => "parenb -parodd"
  }

  // ---------------------------------------------------------------------
  // Character length
  // ---------------------------------------------------------------------

  /** Character lengths outside 5..8 are moved to the nearest bound. */
  function ClampLength(n: int): (c: int)
    ensures 5 <= c <= 8
    ensures 5 <= n <= 8 ==> c == n
    ensures n < 5 ==> c == 5
    ensures n > 8 ==> c == 8
  {
    if n < 5 then 5 else if n > 8 then 8 else n
  }

  // ---------------------------------------------------------------------
  // Stop bits
  // ---------------------------------------------------------------------

  datatype StopLength = OneStop | OneAndHalfStop | TwoStops

  /** The length in bits a stop-bit setting stands for. */
  function StopValue(s: StopLength): real {
    match s
    case OneStop => 1.0
    case OneAndHalfStop => 1.5
    case TwoStops => 2.0
  }

  /** The stop-bit setting a length selects; only 1, 1.5 and 2 do. */
  function StopLengthOf(length: real): (r: Option<StopLength>)
    ensures r.Some? <==> length == 1.0 || length == 1.5 || length == 2.0
    ensures r.Some? ==> StopValue(r.value) == length
  {
    if length == 1.0 then Some(OneStop)
    else if length == 2.0 then Some(TwoStops)
    else if length == 1.5 then Some(OneAndHalfStop)
    else None
  }

  /** The length as PHP prints the float: a whole number without a
      fraction, otherwise its single decimal place after a point. */
  function StopText(s: StopLength): (t: string)
    ensures |t| >= 1 && IsDigits(t[..1])
    ensures '.' !in t <==> StopValue(s).Floor as real == StopValue(s)
    ensures '.' !in t ==> IsDigits(t) && ParseDigits(t) as real == StopValue(s) && t[0] != '0'
    ensures '.' in t ==> |t| == 3 && t[1] == '.' && IsDigits(t[2..])
                         && ParseDigits(t[..1]) as real + ParseDigits(t[2..]) as real / 10.0 == StopValue(s)
  {
    match s
    case OneStop =>
      assert ParseDigits("1") == 1 by { assert "1"[..0] == []; }
      "1"
    case OneAndHalfStop =>
      var t := "1.5";
      assert t[..1] == "1" && t[2..] == "5";
      assert ParseDigits("1") == 1 by { assert "1"[..0] == []; }
      assert ParseDigits("5") == 5 by { assert "5"[..0] == []; }
      t
    case TwoStops =>
      assert ParseDigits("2") == 2 by { assert "2"[..0] == []; }
      "2"
  }

  /** `stty` knows one stop bit (`-cstopb`) or two (`cstopb`); 1.5 is
      sent as two. */
  function StopSttyArg(s: StopLength): (arg: string)
    ensures arg == SttyFlag("cstopb", StopValue(s) != 1.0)
  {
    (if s == OneStop then "-" else "") + "cstopb"
  }

  // ---------------------------------------------------------------------
  // Flow control
  // ---------------------------------------------------------------------

  datatype FlowMode = NoFlow | RtsCts | XonXoff

  function FlowName(m: FlowMode): string {
    match m
    case NoFlow => "none"
    case RtsCts => "rts/cts"
    case XonXoff => "xon/xoff"
  }

  /** The flow-control mode a name selects; only the three names do. */
  function FlowNamed(name: string): (r: Option<FlowMode>)
    ensures r.Some? <==> name in {"none", "rts/cts", "xon/xoff"}
    ensures r.Some? ==> FlowName(r.value) == name
  {
    if name == "none" then Some(NoFlow)
    else if name == "rts/cts" then Some(RtsCts)
    else if name == "xon/xoff" then Some(XonXoff)
    else None
  }

  /** The line settings a flow-control mode stands for under `stty`: local
      line without handshake for `none`, the hardware handshake for
      `rts/cts`, the software one in both directions for `xon/xoff`. */
  function FlowSttyFlags(m: FlowMode): seq<string> {
    [SttyFlag("clocal", m == NoFlow), SttyFlag("crtscts", m == RtsCts),
     SttyFlag("ixon", m == XonXoff), SttyFlag("ixoff", m == XonXoff)]
  }

  lemma NoFlowSttyEntry()
    ensures Words(FlowSttyFlags(NoFlow)) == "clocal -crtscts -ixon -ixoff"
  {
    var w := FlowSttyFlags(NoFlow);
    assert w == [w[0], w[1], w[2], w[3]];
    WordsOfFour(w[0], w[1], w[2], w[3]);
    assert w[1] == "-crtscts";
    assert w[2] == "-ixon";
    assert w[3] == "-ixoff";
  }

  lemma RtsCtsSttyEntry()
    ensures Words(FlowSttyFlags(RtsCts)) == "-clocal crtscts -ixon -ixoff"
  {
    var w := FlowSttyFlags(RtsCts);
    assert w == [w[0], w[1], w[2], w[3]];
    WordsOfFour(w[0], w[1], w[2], w[3]);
    assert w[0] == "-clocal";
    assert w[2] == "-ixon";
    assert w[3] == "-ixoff";
  }

  lemma XonXoffSttyEntry()
    ensures Words(FlowSttyFlags(XonXoff)) == "-clocal -crtscts ixon ixoff"
  {
    var w := FlowSttyFlags(XonXoff);
    assert w == [w[0], w[1], w[2], w[3]];
    WordsOfFour(w[0], w[1], w[2], w[3]);
    assert w[0] == "-clocal";
    assert w[1] == "-crtscts";
  }

  /** The `stty` table for the three flow-control modes. */
  function FlowSttyArgs(m: FlowMode): (args: string)
    ensures args == Words(FlowSttyFlags(m))
  {
    match m
    case NoFlow =>
      NoFlowSttyEntry();
      "clocal -crtscts -ixon -ixoff"
    case RtsCts =>
      RtsCtsSttyEntry();
      "-clocal crtscts -ixon -ixoff"
    case XonXoff =>
      XonXoffSttyEntry();
      "-clocal -crtscts ixon ixoff"
  }

  /** The `mode` switches a flow-control mode stands for: XON/XOFF on only
      for `xon/xoff`, CTS output handshake on and RTS in handshake mode
      only for `rts/cts`. */
  function FlowModeSwitches(m: FlowMode): seq<string> {
    [OnOff("xon", m == XonXoff), OnOff("octs", m == RtsCts),
     "rts=" + (if m == RtsCts then "hs" else "on")]
  }

  lemma NoFlowModeEntry()
    ensures Words(FlowModeSwitches(NoFlow)) == "xon=off octs=off rts=on"
  {
    var w := FlowModeSwitches(NoFlow);
    assert w == [w[0], w[1], w[2]];
    WordsOfThree(w[0], w[1], w[2]);
    assert w[0] == "xon=off";
    assert w[1] == "octs=off";
    assert w[2] == "rts=on";
  }

  lemma RtsCtsModeEntry()
    ensures Words(FlowModeSwitches(RtsCts)) == "xon=off octs=on rts=hs"
  {
    var w := FlowModeSwitches(RtsCts);
    assert w == [w[0], w[1], w[2]];
    WordsOfThree(w[0], w[1], w[2]);
    assert w[0] == "xon=off";
    assert w[1] == "octs=on";
    assert w[2] == "rts=hs";
  }

  lemma XonXoffModeEntry()
    ensures Words(FlowModeSwitches(XonXoff)) == "xon=on octs=off rts=on"
  {
    var w := FlowModeSwitches(XonXoff);
    assert w == [w[0], w[1], w[2]];
    WordsOfThree(w[0], w[1], w[2]);
    assert w[0] == "xon=on";
    assert w[1] == "octs=off";
    assert w[2] == "rts=on";
  }

  /** The `mode` table for the three flow-control modes. */
  function FlowModeArgs(m: FlowMode): (args: string)
    ensures args == Words(FlowModeSwitches(m))
  {
    match m
    case NoFlow =>
      NoFlowModeEntry();
      "xon=off octs=off rts=on"
    case RtsCts =>
      RtsCtsModeEntry();
      "xon=off octs=on rts=hs"
    case XonXoff =>
      XonXoffModeEntry();
      "xon=on octs=off rts=on"
  }

}

=== FILE: wrappers.dfy ===
/** Optional values, used for PHP's nullable fields and for absent results. */
module Wrappers {

  datatype Option<+T> = None | Some(value: T)

}
